=== FILE: README.md ===
# Storefront cart and checkout, modelled in Dafny

This project models the decision logic of a small e-commerce storefront (product catalogue, shopping cart, PIX checkout, payment webhook, address book). It proves properties of that logic:

- **Cart store** (`cart.dfy`, module `Cart`): the cart reducer over an ordered list of `CartItem`s. Its six actions are ADD_ITEM, REMOVE_ITEM, UPDATE_QUANTITY, TOGGLE_ITEM, TOGGLE_ALL and CLEAR_CART. The module also has the derived totals (`calculateTotals`) and the mount-time reload, which replays saved items as ADD_ITEM.
- **Form schemas** (`schemas.dfy`, module `Schemas`): the address, product, coupon and order validators. Each returns the parsed value or the list of issues. The postal-code regular expression `^\d{5}-?\d{3}$` is modelled as a small automaton. A lemma proves it equal to a declarative description of the shape.
- **Cart page** (`cart_page.dfy`, module `CartPage`): what the page renders for a cart and which action each control dispatches. This covers the quantity clamps of the minus and plus buttons, the select-all checkbox and the checkout link.
- **Checkout** (`checkout.dfy`, module `Checkout`): whether checkout is offered, and `handleCheckout`. `handleCheckout` writes the order row, then the order-item rows, then the charge request. Each step can fail, and a failure stops the later steps without undoing the earlier ones.
- **Route guard** (`route_guard.dfy`, module `RouteGuard`): the middleware's redirect decision.
- **Payment webhook** (`pix_webhook.dfy`, module `PixWebhook`): the signature check, the order update and the confirmation e-mail.
- **Address selector** (`address_selector.dfy`, module `AddressSelector`): loading the addresses, choosing one automatically, and saving a new one.
- `entities.dfy` (module `Entities`) holds the persisted records. `common.dfy` (module `Common`) holds `Option`, `Result` and the string helpers (`startsWith`, `slice(0, n)`, upper-casing).

## Modelling choices

- Cart and order money is integer cents (`int`), so sums are exact. Form numbers in the schemas are `real`. Zod's `.int()` check becomes `x == x.Floor as real`.
- The cart state is its item list. The selected items, the total and the selected total are computed from it by `CalculateTotals`.
- Calls to the backend, the auth session, the payment endpoint and the e-mail provider are inputs. Each is an `Option`, a `bool` or a small datatype holding the call's outcome. For example, `newOrderId: Option<string>` is the id the order insert returns, or `None` when the insert fails.
- Zod's `url()`, `uuid()` and `datetime()` checks are function parameters (`isUrl`, `isUuid`, `isDatetime`).
- `None` means an absent field. For the coupon's `.nullish()` fields (`src/lib/validations/schemas.ts:25-30`) it also stands for `null`, which zod accepts there. The `.optional()` fields (address complement, product description, order coupon code) have no `null` in the model.

Behaviour of the code worth knowing:

- **Reload quantities.** The reload dispatches ADD_ITEM once per saved item (`src/lib/contexts/CartContext.tsx:136-138`). So every restored line comes back with quantity 1, not with its saved quantity, and unselected. `Cart.LoadSaved` and `Cart.ReloadExample` state this.
- **Stock clamp on the plus button.** The clamp `min(stock, q + 1)` gives 0 for a product with no stock. It can also lower a quantity that ADD_ITEM has pushed above the stock (`CartPage.IncrementWithinStock`). The store itself never clamps (`Cart.UpdateQuantitySets`).
- **Webhook order of checks.** The webhook reads the JSON body before it checks the signature. A request whose body is not JSON therefore gets 500, not 401.
- **Webhook failure after the update.** A paid notification whose order lacks its profile, address or a product name fails after the update has been written. It answers 500 with the row already updated and no e-mail.

## Model

| member | source | states |
|---|---|---|
| Common.Prefix | src/app/checkout/page.tsx:90 | `slice(0, n)`: the result is a prefix of the string, exactly `n` long when the string is long enough, and the whole string when it is not longer than `n` |
| Common.ToUpper | src/lib/validations/schemas.ts:24 | upper-casing keeps the length and maps each character through the ASCII upper-case map |
| Common.Utf16Length | src/lib/validations/schemas.ts:9 | the length JavaScript reports, in UTF-16 code units: between the number of characters and twice that, zero only for the empty string, equal to the number of characters iff every character is in the basic plane, and for a single character its unit count (1, or 2 outside the basic plane) |
| Common.Utf16LengthAppend | src/lib/validations/schemas.ts:9 | the UTF-16 length of a concatenation is the sum of the parts' lengths, so together with the single-character case it counts 2 for every character outside the basic plane |
| Common.ToUpperKeepsUtf16Length | src/lib/validations/schemas.ts:24 | upper-casing keeps the UTF-16 length, so a code's length check gives the same answer before and after |
| Common.ToUpperIdempotent | src/lib/validations/schemas.ts:24 | an upper-cased code is upper case, and upper-casing it again changes nothing |
| Cart.EditMatching | src/lib/contexts/CartContext.tsx:68-88 | mapping over the items edits exactly the items with the given id, in place, and keeps the length |
| Cart.SelectAll | src/lib/contexts/CartContext.tsx:90-95 | every item gets the given selection flag and nothing else changes |
| Cart.RemoveId | src/lib/contexts/CartContext.tsx:61-66 | the filter keeps exactly the items with another id; an absent id leaves the list unchanged; a present id shortens it; distinct ids stay distinct |
| Cart.Selected | src/lib/contexts/CartContext.tsx:106 | the selected sub-list holds exactly the items whose flag is set |
| Cart.Reduce | src/lib/contexts/CartContext.tsx:38-103 | every action keeps item ids pairwise distinct |
| Cart.SelectedTotalIsMasked | src/lib/contexts/CartContext.tsx:106-111 | the sum over the selected sub-list equals the sum over all items with unselected lines counted as zero |
| Cart.MaskedTotalBounds | src/lib/contexts/CartContext.tsx:107-111 | with non-negative prices and quantities, 0 ≤ selected total ≤ total |
| Cart.CalculateTotals | src/lib/contexts/CartContext.tsx:105-114 | the totals hold the selected items, the selected total equals the masked sum over all items, and it lies between 0 and the total for non-negative lines; the total is the sum over all items and the selected items are the selected sub-list in cart order |
| Cart.AddExistingIncrements | src/lib/contexts/CartContext.tsx:41-52 | adding a product already in the cart adds exactly one to the quantity of that id; length, order, products and flags are unchanged |
| Cart.AddNewAppends | src/lib/contexts/CartContext.tsx:54-58 | adding a new product keeps the earlier items and appends one unselected item with quantity 1 |
| Cart.RemoveKeepsOthers | src/lib/contexts/CartContext.tsx:61-66 | after removal no item has the id, every other item survives, and an absent id is a no-op |
| Cart.RemovePreservesOrder | src/lib/contexts/CartContext.tsx:64 | removal distributes over concatenation, so the survivors keep their relative order |
| Cart.SelectedPreservesOrder | src/lib/contexts/CartContext.tsx:106 | the selected sub-list distributes over concatenation, so it keeps the cart's order |
| Cart.UpdateQuantitySets | src/lib/contexts/CartContext.tsx:68-77 | the matching item's quantity becomes the payload value, with no clamping; nothing else changes; an unknown id is a no-op |
| Cart.ToggleItemInvolution | src/lib/contexts/CartContext.tsx:79-88 | only the matching item's flag flips, and toggling twice gives back the original cart |
| Cart.ToggleAllUniform | src/lib/contexts/CartContext.tsx:90-95 | every flag becomes the payload; products, quantities and order are unchanged; applying it twice equals applying it once |
| Cart.ClearCartEmpties | src/lib/contexts/CartContext.tsx:97-98 | clearing gives the initial empty list, whose totals are all zero |
| Cart.RunKeepsIdsUnique | src/lib/contexts/CartContext.tsx:38-103 | ids stay pairwise distinct across any sequence of dispatched actions |
| Cart.AddItemIds | src/lib/contexts/CartContext.tsx:40-58 | one ADD_ITEM adds the product's id to the cart's ids and leaves every item unselected |
| Cart.LoadSaved | src/lib/contexts/CartContext.tsx:131-140 | replaying the saved list gives distinct ids that are exactly the saved ids, all unselected; for distinct saved ids, the same ids in the same order, each with quantity 1 |
| Cart.ReloadExample | src/lib/contexts/CartContext.tsx:133-139 | replaying the saved list `[p × 2 selected, q × 1 unselected]` through the reload's ADD_ITEM sequence gives `[p × 1, q × 1]`, both unselected |
| Schemas.PostalCodeMatcherCorrect | src/lib/validations/schemas.ts:10 | the postal-code matcher accepts a string iff it is 5 digits, an optional '-', then 3 digits |
| Schemas.ValidateAddress | src/lib/validations/schemas.ts:3-12 | an address is accepted iff street, number, neighbourhood and city are non-empty, the state is exactly 2 UTF-16 code units long and the postal code has the right shape; an accepted form is returned unchanged; a rejected one has at least one issue |
| Schemas.AstralStateHasTwoUnits | src/lib/validations/schemas.ts:9 | a state made of one emoji counts as 2 units long, so it is judged exactly like a two-letter state |
| Schemas.ComplementIsOptional | src/lib/validations/schemas.ts:6 | the complement, present or absent, never decides acceptance |
| Schemas.ParseStatus | src/lib/validations/schemas.ts:19 | a parsed status names the string it came from |
| Schemas.StatusRoundTrip | src/lib/validations/schemas.ts:19 | each of the three status names parses back to its status |
| Schemas.UrlIssues | src/lib/validations/schemas.ts:18 | there are no image issues iff every image is a URL |
| Schemas.ValidateProduct | src/lib/validations/schemas.ts:14-21 | a product is accepted iff the name is non-empty, price ≥ 0.01, there are 1 to 5 images that are all URLs, the status is one of the enum values, and the stock is a whole number ≥ 0; the parsed name, description, price and images are the input's, and the parsed stock equals the input |
| Schemas.ValidateCoupon | src/lib/validations/schemas.ts:23-34 | a coupon is accepted iff the code is ≥ 3 UTF-16 code units long, each present optional field is in range, and at least one discount is given; the accepted value is the input with its code upper-cased; no discount always gives the refinement issue |
| Schemas.CouponValidationIdempotent | src/lib/validations/schemas.ts:24 | an accepted coupon's code is upper case and as long as the input's (in characters and in UTF-16 units), and validating the accepted coupon again returns it unchanged |
| Schemas.LineIssues | src/lib/validations/schemas.ts:38-40 | there are no line issues iff every line has a product uuid and a whole quantity ≥ 1 |
| Schemas.ValidateOrder | src/lib/validations/schemas.ts:36-43 | an order is accepted iff the address id is a uuid, there is at least one line, and every line is valid |
| CartPage.DecrementTo | src/app/carrinho/page.tsx:97 | the minus button asks for a quantity ≥ 1, never above a positive current quantity, one less when the quantity is above 1, and exactly 1 when it is 1 or less |
| CartPage.IncrementTo | src/app/carrinho/page.tsx:113-116 | the plus button asks for at most the stock and at most one more; one more when below stock, otherwise exactly the stock |
| CartPage.Render | src/app/carrinho/page.tsx:11-173 | an empty cart renders only the empty state; otherwise there is one row per item in order, whose toggle, remove, minus and plus controls dispatch that item's actions (`RowFor`), the select-all box is checked iff every item is selected and dispatches TOGGLE_ALL of the inverse, the link is '/checkout' iff some item is selected (else '#'), and the subtotal and the total shown are both the selected total |
| CartPage.CheckoutHref | src/app/carrinho/page.tsx:164-173 | the checkout link targets '/checkout' iff some item is selected, otherwise '#' |
| CartPage.SelectAllFlips | src/app/carrinho/page.tsx:36-38 | the select-all box dispatches TOGGLE_ALL with the inverse of its checked state; afterwards every flag equals that value, so the box's state is inverted |
| CartPage.DecrementStaysPositive | src/app/carrinho/page.tsx:90-99 | the rendered row's minus button is this one; after it the row's quantity is ≥ 1, not above a positive previous quantity, exactly 1 when it was 1 or less (a 0 from an out-of-stock plus click becomes 1), and the other rows are untouched |
| CartPage.IncrementWithinStock | src/app/carrinho/page.tsx:106-118 | the rendered row's plus button is this one; after it the row's quantity is at most its stock: one more when there was room, otherwise the stock; other rows are untouched |
| Checkout.PageFor | src/app/checkout/page.tsx:20-29 | checkout is offered iff some cart item is selected, and the page lists exactly the selected lines, in cart order, and the total it shows is the selected total |
| Checkout.OrderItemsFor | src/app/checkout/page.tsx:66-72 | there is one order item per selected line, in order, with product id, quantity and unit price copied and total price = price × quantity |
| Checkout.OrderItemsSumToTotal | src/app/checkout/page.tsx:66-72 | the order items' total prices add up to the cart total of the same lines |
| Checkout.ChargeDescription | src/app/checkout/page.tsx:90 | the description is "Pedido #" followed by the first 8 characters of the order id |
| Checkout.HandleCheckout | src/app/checkout/page.tsx:31-109 | no address leads to the address alert; no session leads to the login redirect; with both present the outcome is always a failure (the error alert) or the PIX code, never the address alert or login; the PIX code is shown iff the address, session, order insert, item insert and payment call all succeed, and the code shown is the one the payment call returned |
| Checkout.CheckoutWritesAgree | src/app/checkout/page.tsx:47-92 | anything written agrees with the cart: a pending order with discount 0 and subtotal = total = selected total, then one item per selected line whose totals sum to the order total, then a charge for the selected total described by the order id; the order is written iff address, session and order insert are all present; when the item insert fails no items and no charge are written, and when it succeeds both the item rows and the charge request are |
| Checkout.NoAddressNoWrites | src/app/checkout/page.tsx:35-38 | without a selected address, or without a session, no order, item or charge is created |
| Checkout.SingleLineExample | src/app/checkout/page.tsx:47-92 | one selected line of 50.00 × 2 yields an order total of 100.00, one item of 100.00 and a charge of 100.00 |
| RouteGuard.Decide | src/middleware.ts:6-37 | redirects go only to '/login' or '/'; '/login' exactly for a '/admin' path without a session; a request passes iff an admin path has a session and an admin profile, or a non-admin path is not a login/register page with a session |
| RouteGuard.NonAdminGoesHome | src/middleware.ts:19-27 | a '/admin' path with a session whose profile is missing or not admin goes to '/' |
| RouteGuard.PrefixGuardsLongerPaths | src/middleware.ts:14 | '/administrator' is guarded too, because the test is a plain prefix comparison |
| RouteGuard.RedirectTargetsPass | src/middleware.ts:14-37 | following a redirect with the same session passes, so there is no redirect loop |
| PixWebhook.Updated | src/app/api/webhooks/pix/route.ts:58-64 | the payment status is stored verbatim; the order status becomes processing iff it is 'paid', else pending, whatever it was; no other field changes |
| PixWebhook.EmailItems | src/app/api/webhooks/pix/route.ts:80-84 | the e-mail lines map one-to-one from the order items (name, quantity, unit price), and exist iff every product name is present |
| PixWebhook.ConfirmationEmail | src/app/api/webhooks/pix/route.ts:71-98 | the e-mail exists iff the customer, the address and every product name are present; it goes to the customer's address, greets the customer by full name, has the subject "Pedido Confirmado - HYPEX #" plus the first 8 characters of the order id, carries the shipping address, and its lines are the order items' lines and its total the order total |
| PixWebhook.HandleNotification | src/app/api/webhooks/pix/route.ts:9-107 | 401 iff the body parses and the signature is missing, empty or differs from the secret, with no update and no e-mail; an e-mail is sent iff the answer is 200 for a 'paid' status, and the e-mail sent is the record's confirmation e-mail; a failed lookup or update gives no update and no e-mail; with a valid signature and a successful lookup and update, the order is updated (processing iff 'paid', else pending), a non-paid status answers 200, and a paid one answers 200 iff the confirmation e-mail can be built (else 500 with the row already updated) |
| PixWebhook.UnsetSecretRefuses | src/app/api/webhooks/pix/route.ts:12-21 | with no secret configured every parsed notification gets 401 |
| PixWebhook.PaidSendsConfirmation | src/app/api/webhooks/pix/route.ts:58-100 | a paid notification for a complete order sets it to processing and sends exactly the record's confirmation e-mail: to the customer, with the order's lines and total |
| AddressSelector.FindDefault | src/components/AddressSelector.tsx:54 | `find` returns the first default address, and returns one iff some address is default |
| AddressSelector.AutoSelect | src/components/AddressSelector.tsx:53-55 | an address is chosen iff the list is non-empty and nothing is selected; it is the first default address, or the first address when none is default |
| AddressSelector.Fetch | src/components/AddressSelector.tsx:39-62 | loading always ends; rows replace the list and the selection is the automatic choice over those rows; no session or a fetch error leaves the list unchanged and selects nothing; any selected address is one of the rows |
| AddressSelector.Submit | src/components/AddressSelector.tsx:64-87 | an invalid form changes nothing; no session or a failed insert leaves the list unchanged and the form open or closed as it was; a saved address is prepended and selected; its id is the inserted row's id, its user the session's user, and every other field (street, number, complement, neighbourhood, city, state, postal code, default flag) is the form's |

## Left out

- The backend service (queries, inserts, row-level security, the newest-first ordering of addresses) is left out because it is external. Each call's outcome is an input to the model.
- The payment-charge endpoint (`src/app/api/payments/pix/route.ts`) is left out because it is a wrapper over the payment provider's HTTP API and credentials. Checkout models only the request it sends and whether a PIX code came back.
- React effects are left out because they are rendering mechanics:
  - The reducer copies the previous state's totals, and an effect then overwrites them with `Object.assign`. So the page can show totals one render late. The model computes the totals from the current items instead.
  - The local-storage save and JSON (de)serialisation are not modelled. A corrupt saved cart, which makes `JSON.parse` throw, is not modelled either.
- Cart.Reduce: the `default` branch for an unknown action type is not modelled, because the `Action` datatype has no such value.
- The `useCart` guard outside a provider, the admin CRUD pages, the navigation bar and the e-mail template are left out as presentation or context code.
- Currency formatting, the QR image, the clipboard and `alert` are left out as presentation code.
- JavaScript floating-point prices are not modelled; money is integer cents.
- Timestamps (`created_at`, `updated_at`), the admin `expected_delivery` and `tracking_code` fields, and coupon usage counts are left out because no modelled code reads them.
- Checkout's `isLoading` flag and the disabled state of its button are left out. The handler checks for an address itself, and that check is modelled.
- Common.Prefix: a cut that falls inside a UTF-16 surrogate pair is not modelled. Dafny characters are whole code points, so `slice(0, 8)` is modelled as the first 8 characters. Order ids are ASCII UUIDs, where the two readings agree.
- Common.ToUpper: only the ASCII letters are upper-cased, because full Unicode case mapping (which can change a string's length) is a library table.
- Schemas.ValidateAddress: a `null` complement, which zod's `.optional()` rejects, is not modelled, because the form's `Option` has a single `None`, which stands for the absent field.
- Schemas.ValidateProduct: a `null` description, which zod's `.optional()` rejects, is not modelled, for the same reason.
- Schemas.ValidateOrder: a `null` coupon code, which zod's `.optional()` rejects, is not modelled, for the same reason.
- Schemas.ValidateProduct: the issue lists give a field name without array indices. Zod's built-in messages (for `min(0)`, `int()` and the enum) are paraphrased. Only success and failure, and the custom messages, are stated exactly.
- Schemas.ValidateProduct: zod's rejection of `NaN` and `Infinity` is not modelled, because `real` has no such values.
- Schemas.ValidateCoupon: a blank numeric field is modelled as `None` and accepted as absent. The coupon page registers its four numeric inputs with `valueAsNumber`, so a blank field arrives as `NaN`, which zod's `z.number().nullish()` rejects as an invalid type. That rejection, and the refine issue it suppresses, are not modelled, because `real` has no `NaN`.
- PixWebhook.HandleNotification: a JSON body without a string `payment_id` or `status` is not modelled; every parsed body is a `Notification` with both. For a body without `status`, the update's `payment_status: undefined` is dropped by JSON serialisation, so the column keeps its value while the order status becomes pending. `Updated` always stores the status it is given.
- PixWebhook.HandleNotification: a failure of the e-mail provider's own call is not modelled. The e-mail counts as sent once it is handed to the provider.
- AddressSelector.Fetch: the re-fetch the component runs whenever `selectedId` or the callback changes is not modelled. Each fetch is one call of `Fetch`.

=== FILE: address_selector.dfy ===
/**
 * The shipping-address picker: loading the user's addresses (newest first, as
 * the query returns them), choosing one automatically, and saving a new one.
 */
module AddressSelector {
  import opened Common
  import opened Entities
  import opened Schemas

  datatype State = State(addresses: seq<Address>, loading: bool, showForm: bool)

  const Initial := State([], true, false)

  /** The state after a handler and the address it passed to `onSelect`, if any. */
  datatype Step = Step(state: State, selected: Option<Address>)

  datatype FetchResult = NoSession | FetchFailed | Rows(rows: seq<Address>)

  /** `data.find(addr => addr.is_default)` */
  function FindDefault(rows: seq<Address>): (r: Option<Address>)
    ensures r.Some? <==> exists i | 0 <= i < |rows| :: rows[i].isDefault
    ensures r.Some? ==> exists k | 0 <= k < |rows| ::
      && rows[k] == r.value
      && r.value.isDefault
      && forall j | 0 <= j < k :: !rows[j].isDefault
  {
    if rows == [] then None
    else if rows[0].isDefault then Some(rows[0])
    else
      var rest := FindDefault(rows[1..]);
      assert rest.Some? ==> exists k | 0 <= k < |rows| ::
        rows[k] == rest.value && forall j | 0 <= j < k :: !rows[j].isDefault by {
        if rest.Some? {
          var k :| 0 <= k < |rows[1..]| && rows[1..][k] == rest.value
            && forall j | 0 <= j < k :: !rows[1..][j].isDefault;
          assert rows[k + 1] == rest.value;
          forall j | 0 <= j < k + 1 ensures !rows[j].isDefault {
            if j > 0 { assert rows[j] == rows[1..][j - 1]; }
          }
        }
      }
      assert (exists i | 0 <= i < |rows| :: rows[i].isDefault) ==> exists i | 0 <= i < |rows[1..]| :: rows[1..][i].isDefault by {
        if i :| 0 <= i < |rows| && rows[i].isDefault {
          assert rows[1..][i - 1] == rows[i];
        }
      }
      rest
  }

  /** `!selectedId`: no id, or the empty string. */
  predicate NoSelection(selectedId: Option<string>)
  {
    selectedId.None? || selectedId == Some("")
  }

  /**
   * The address chosen after loading: the first default address, else the first
   * (newest) one; nothing when the list is empty or an address is already selected.
   */
  function AutoSelect(rows: seq<Address>, selectedId: Option<string>): (r: Option<Address>)
    ensures r.Some? <==> rows != [] && NoSelection(selectedId)
    ensures r.Some? && (exists i | 0 <= i < |rows| :: rows[i].isDefault) ==>
      && r.value.isDefault
      && exists k | 0 <= k < |rows| :: rows[k] == r.value && forall j | 0 <= j < k :: !rows[j].isDefault
    ensures r.Some? && (forall i | 0 <= i < |rows| :: !rows[i].isDefault) ==> r.value == rows[0]
  {
    if rows != [] && NoSelection(selectedId) then
      var d := FindDefault(rows);
      Some(if d.Some? then d.value else rows[0])
    else None
  }

  /** `fetchAddresses`: every path ends with loading cleared. */
  function Fetch(st: State, selectedId: Option<string>, result: FetchResult): (s: Step)
    ensures !s.state.loading && s.state.showForm == st.showForm
    ensures result.Rows? ==> s.state.addresses == result.rows && s.selected == AutoSelect(result.rows, selectedId)
    ensures !result.Rows? ==> s.state.addresses == st.addresses && s.selected.None?
    ensures s.selected.Some? ==> result.Rows? && s.selected.value in result.rows
  {
    match result
    case NoSession => Step(st.(loading := false), None)
    case FetchFailed => Step(st.(loading := false), None)
    case Rows(rows) =>
      var chosen := AutoSelect(rows, selectedId);
      assert chosen.Some? ==> chosen.value in rows by {
        if chosen.Some? && exists i | 0 <= i < |rows| :: rows[i].isDefault {
          var k :| 0 <= k < |rows| && rows[k] == chosen.value;
        }
      }
      Step(State(rows, false, st.showForm), chosen)
  }

  /** The row the insert returns: the form's fields with the new id and the session's user. */
  function NewAddress(f: AddressForm, id: string, userId: string): Address
  {
    Address(id, userId, f.street, f.number, f.complement, f.neighborhood, f.city, f.state, f.postalCode, f.isDefault)
  }

  /**
   * Submitting the new-address form. The form is validated first and `onSubmit`
   * runs only when it is valid; `userId` is the session's user and `insertedId`
   * the id of the inserted row (`None` when the insert fails).
   */
  function Submit(st: State, f: AddressForm, userId: Option<string>, insertedId: Option<string>): (s: Step)
    ensures !ValidAddress(f) ==> s == Step(st, None)
    ensures ValidAddress(f) ==> !s.state.loading
    ensures userId.None? || insertedId.None? ==> s.state.addresses == st.addresses && s.selected.None?
    ensures s.selected.Some? <==> ValidAddress(f) && userId.Some? && insertedId.Some?
    ensures s.selected.None? ==> s.state.showForm == st.showForm
    ensures s.selected.Some? ==>
      && s.state.addresses == [s.selected.value] + st.addresses
      && !s.state.showForm
      && s.selected.value.id == insertedId.value
      && s.selected.value.userId == userId.value
      && s.selected.value.street == f.street
      && s.selected.value.number == f.number
      && s.selected.value.complement == f.complement
      && s.selected.value.neighborhood == f.neighborhood
      && s.selected.value.city == f.city
      && s.selected.value.state == f.state
      && s.selected.value.postalCode == f.postalCode
      && s.selected.value.isDefault == f.isDefault
  {
    if ValidateAddress(f).Failure? then Step(st, None)
    else if userId.None? || insertedId.None? then Step(st.(loading := false), None)
    else
      var a := NewAddress(f, insertedId.value, userId.value);
      Step(State([a] + st.addresses, false, false), Some(a))
  }
}

=== FILE: cart.dfy ===
/**
 * The shopping-cart store: a reducer over an ordered list of cart items with
 * six actions, and the totals derived from that list. Prices are integer cents.
 */
module Cart {
  import opened Entities

  /** A product in the cart, with how many the shopper wants and whether it goes to checkout. */
  datatype CartItem = CartItem(product: Product, quantity: int, selected: bool)
  {
    function Id(): string { product.id }

    /** `price * quantity` */
    function LineTotal(): int { product.price * quantity }
  }

  datatype Action =
    | AddItem(product: Product)
    | RemoveItem(id: string)
    | UpdateQuantity(id: string, quantity: int)
    | ToggleItem(id: string)
    | ToggleAll(selected: bool)
    | ClearCart

  /** The item list of the initial (and of the cleared) state. */
  const Initial: seq<CartItem> := []

  predicate HasId(items: seq<CartItem>, id: string)
  {
    exists i | 0 <= i < |items| :: items[i].Id() == id
  }

  predicate UniqueIds(items: seq<CartItem>)
  {
    forall i, j | 0 <= i < j < |items| :: items[i].Id() != items[j].Id()
  }

  /** The item an ADD_ITEM of a product not yet in the cart appends. */
  function NewItem(p: Product): CartItem
  {
    CartItem(p, 1, false)
  }

  /** The per-item change of the three actions that touch only the items with a given id. */
  datatype Edit = Bump | SetQuantity(quantity: int) | Flip

  function Apply(e: Edit, item: CartItem): CartItem
  {
    match e
    case Bump => item.(quantity := item.quantity + 1)
    case SetQuantity(q) => item.(quantity := q)
    case Flip => item.(selected := !item.selected)
  }

  /** `items.map(item => item.id === id ? edit(item) : item)` */
  function EditMatching(items: seq<CartItem>, id: string, e: Edit): (r: seq<CartItem>)
    ensures |r| == |items|
    ensures forall i | 0 <= i < |items| ::
      r[i] == if items[i].Id() == id then Apply(e, items[i]) else items[i]
  {
    if items == [] then []
    else [if items[0].Id() == id then Apply(e, items[0]) else items[0]] + EditMatching(items[1..], id, e)
  }

  /** `items.map(item => ({ ...item, selected: b }))` */
  function SelectAll(items: seq<CartItem>, b: bool): (r: seq<CartItem>)
    ensures |r| == |items|
    ensures forall i | 0 <= i < |items| :: r[i] == items[i].(selected := b)
  {
    if items == [] then [] else [items[0].(selected := b)] + SelectAll(items[1..], b)
  }

  /** `items.filter(item => item.id !== id)` */
  function RemoveId(items: seq<CartItem>, id: string): (r: seq<CartItem>)
    ensures forall x :: x in r <==> x in items && x.Id() != id
    ensures !HasId(items, id) ==> r == items
    ensures HasId(items, id) ==> |r| < |items|
    ensures UniqueIds(items) ==> UniqueIds(r)
  {
    if items == [] then []
    else
      var rest := RemoveId(items[1..], id);
      assert HasId(items[1..], id) ==> HasId(items, id) by {
        if HasId(items[1..], id) {
          var k :| 0 <= k < |items[1..]| && items[1..][k].Id() == id;
          assert items[k + 1].Id() == id;
        }
      }
      if items[0].Id() == id then rest
      else
        assert UniqueIds(items) ==> forall j | 0 <= j < |rest| :: rest[j].Id() != items[0].Id() by {
          if UniqueIds(items) {
            forall j | 0 <= j < |rest|
              ensures rest[j].Id() != items[0].Id()
            {
              assert rest[j] in items[1..];
              var k :| 0 <= k < |items[1..]| && items[1..][k] == rest[j];
              assert items[k + 1] == rest[j];
            }
          }
        }
        [items[0]] + rest
  }

  /** `items.filter(item => item.selected)` */
  function Selected(items: seq<CartItem>): (r: seq<CartItem>)
    ensures forall x :: x in r <==> x in items && x.selected
    ensures |r| <= |items|
  {
    if items == [] then []
    else if items[0].selected then [items[0]] + Selected(items[1..])
    else Selected(items[1..])
  }

  /** The reducer: the item list after one action. */
  function Reduce(items: seq<CartItem>, a: Action): (r: seq<CartItem>)
    ensures UniqueIds(items) ==> UniqueIds(r)
  {
    match a
    case AddItem(p) =>
      if HasId(items, p.id) then EditMatching(items, p.id, Bump)
      else
        assert UniqueIds(items) ==> UniqueIds(items + [NewItem(p)]) by {
          if UniqueIds(items) {
            forall i, j | 0 <= i < j < |items| + 1
              ensures (items + [NewItem(p)])[i].Id() != (items + [NewItem(p)])[j].Id()
            {
              if j == |items| {
                assert items[i].Id() != p.id;
              }
            }
          }
        }
        items + [NewItem(p)]
    case RemoveItem(id) => RemoveId(items, id)
    case UpdateQuantity(id, q) => EditMatching(items, id, SetQuantity(q))
    case ToggleItem(id) => EditMatching(items, id, Flip)
    case ToggleAll(b) => SelectAll(items, b)
    case ClearCart => Initial
  }

  /** The state reached by dispatching `actions` in order. */
  function Run(items: seq<CartItem>, actions: seq<Action>): seq<CartItem>
    decreases |actions|
  {
    if actions == [] then items else Run(Reduce(items, actions[0]), actions[1..])
  }

  // ---------------------------------------------------------------- totals

  /** Σ price × quantity */
  function Total(items: seq<CartItem>): int
  {
    if items == [] then 0 else items[0].LineTotal() + Total(items[1..])
  }

  /** Σ price × quantity over the selected items, written as a masked sum over the whole list. */
  function MaskedTotal(items: seq<CartItem>): int
  {
    if items == [] then 0
    else (if items[0].selected then items[0].LineTotal() else 0) + MaskedTotal(items[1..])
  }

  predicate NonNegative(items: seq<CartItem>)
  {
    forall i | 0 <= i < |items| :: items[i].product.price >= 0 && items[i].quantity >= 0
  }

  datatype Totals = Totals(selectedItems: seq<CartItem>, total: int, selectedTotal: int)

  /** Summing the selected sub-list is the same as masking the unselected items out of the sum. */
  lemma {:induction false} SelectedTotalIsMasked(items: seq<CartItem>)
    ensures Total(Selected(items)) == MaskedTotal(items)
  {
    if items != [] {
      SelectedTotalIsMasked(items[1..]);
    }
  }

  /** With non-negative prices and quantities the masked sum is between zero and the full sum. */
  lemma {:induction false} MaskedTotalBounds(items: seq<CartItem>)
    requires NonNegative(items)
    ensures 0 <= MaskedTotal(items) <= Total(items)
  {
    if items != [] {
      assert NonNegative(items[1..]) by {
        forall i | 0 <= i < |items[1..]|
          ensures items[1..][i].product.price >= 0 && items[1..][i].quantity >= 0
        {
          assert items[1..][i] == items[i + 1];
        }
      }
      MaskedTotalBounds(items[1..]);
    }
  }

  /** `calculateTotals`: the selected items, the sum over all items and the sum over the selected ones. */
  function CalculateTotals(items: seq<CartItem>): (t: Totals)
    ensures t.selectedTotal == MaskedTotal(items)
    ensures NonNegative(items) ==> 0 <= t.selectedTotal <= t.total
    ensures t.total == Total(items) && t.selectedItems == Selected(items)
  {
    SelectedTotalIsMasked(items);
    assert NonNegative(items) ==> 0 <= MaskedTotal(items) <= Total(items) by {
      if NonNegative(items) { MaskedTotalBounds(items); }
    }
    var sel := Selected(items);
    Totals(sel, Total(items), Total(sel))
  }

  // ---------------------------------------------------------------- reducer properties

  /** ADD_ITEM of a product already in the cart adds one to the quantity of the items with that id and changes nothing else. */
  lemma AddExistingIncrements(items: seq<CartItem>, p: Product)
    requires HasId(items, p.id)
    ensures var r := Reduce(items, AddItem(p));
      && |r| == |items|
      && forall i | 0 <= i < |items| ::
        && r[i].product == items[i].product
        && r[i].selected == items[i].selected
        && r[i].quantity == items[i].quantity + (if items[i].Id() == p.id then 1 else 0)
  {
  }

  /** ADD_ITEM of a product not in the cart appends one unselected item with quantity 1. */
  lemma AddNewAppends(items: seq<CartItem>, p: Product)
    requires !HasId(items, p.id)
    ensures var r := Reduce(items, AddItem(p));
      && |r| == |items| + 1
      && r[..|items|] == items
      && r[|items|] == CartItem(p, 1, false)
  {
  }

  /** REMOVE_ITEM keeps exactly the items with another id, and an absent id changes nothing. */
  lemma RemoveKeepsOthers(items: seq<CartItem>, id: string)
    ensures var r := Reduce(items, RemoveItem(id));
      && !HasId(r, id)
      && (forall x :: x in r <==> x in items && x.Id() != id)
      && (!HasId(items, id) ==> r == items)
  {
  }

  /** Removal distributes over concatenation, so the surviving items keep their relative order. */
  lemma {:induction false} RemovePreservesOrder(a: seq<CartItem>, b: seq<CartItem>, id: string)
    ensures RemoveId(a + b, id) == RemoveId(a, id) + RemoveId(b, id)
  {
    if a == [] {
      assert a + b == b;
    } else {
      assert (a + b)[1..] == a[1..] + b;
      RemovePreservesOrder(a[1..], b, id);
    }
  }

  /** The selected sub-list keeps the cart's order in the same sense. */
  lemma {:induction false} SelectedPreservesOrder(a: seq<CartItem>, b: seq<CartItem>)
    ensures Selected(a + b) == Selected(a) + Selected(b)
  {
    if a == [] {
      assert a + b == b;
    } else {
      assert (a + b)[1..] == a[1..] + b;
      SelectedPreservesOrder(a[1..], b);
    }
  }

  /** UPDATE_QUANTITY stores the payload quantity verbatim (no clamping) and changes nothing else. */
  lemma UpdateQuantitySets(items: seq<CartItem>, id: string, q: int)
    ensures var r := Reduce(items, UpdateQuantity(id, q));
      && |r| == |items|
      && (forall i | 0 <= i < |items| ::
        && r[i].product == items[i].product
        && r[i].selected == items[i].selected
        && r[i].quantity == (if items[i].Id() == id then q else items[i].quantity))
      && (!HasId(items, id) ==> r == items)
  {
  }

  /** TOGGLE_ITEM flips the selection of the matching items only, and toggling twice restores the cart. */
  lemma ToggleItemInvolution(items: seq<CartItem>, id: string)
    ensures var r := Reduce(items, ToggleItem(id));
      && |r| == |items|
      && (forall i | 0 <= i < |items| ::
        && r[i].product == items[i].product
        && r[i].quantity == items[i].quantity
        && r[i].selected == (if items[i].Id() == id then !items[i].selected else items[i].selected))
      && Reduce(r, ToggleItem(id)) == items
  {
    var r := Reduce(items, ToggleItem(id));
    var rr := Reduce(r, ToggleItem(id));
    assert forall i | 0 <= i < |items| :: rr[i] == items[i];
  }

  /** TOGGLE_ALL(b) sets every selection flag to `b`, keeps products, quantities and order, and is idempotent. */
  lemma ToggleAllUniform(items: seq<CartItem>, b: bool)
    ensures var r := Reduce(items, ToggleAll(b));
      && |r| == |items|
      && (forall i | 0 <= i < |items| ::
        r[i].selected == b && r[i].product == items[i].product && r[i].quantity == items[i].quantity)
      && Reduce(r, ToggleAll(b)) == r
  {
  }

  /** CLEAR_CART returns the initial state, whose totals are all zero. */
  lemma ClearCartEmpties(items: seq<CartItem>)
    ensures Reduce(items, ClearCart) == []
    ensures CalculateTotals(Reduce(items, ClearCart)) == Totals([], 0, 0)
  {
  }

  /** Item ids stay pairwise distinct under every sequence of actions dispatched from the initial state. */
  lemma {:induction false} RunKeepsIdsUnique(items: seq<CartItem>, actions: seq<Action>)
    requires UniqueIds(items)
    ensures UniqueIds(Run(items, actions))
    decreases |actions|
  {
    if actions != [] {
      RunKeepsIdsUnique(Reduce(items, actions[0]), actions[1..]);
    }
  }

  // ---------------------------------------------------------------- reload

  /** The actions the mount-time reload dispatches: one ADD_ITEM per saved item, in order. */
  function ReloadActions(saved: seq<CartItem>): (r: seq<Action>)
    ensures |r| == |saved|
    ensures forall i | 0 <= i < |saved| :: r[i] == AddItem(saved[i].product)
  {
    seq(|saved|, i requires 0 <= i < |saved| => AddItem(saved[i].product))
  }

  /** One ADD_ITEM adds the product's id to the cart's ids and selects nothing. */
  lemma AddItemIds(items: seq<CartItem>, p: Product)
    requires forall i | 0 <= i < |items| :: !items[i].selected
    ensures var r := Reduce(items, AddItem(p));
      && (forall id :: HasId(r, id) <==> HasId(items, id) || id == p.id)
      && (forall i | 0 <= i < |r| :: !r[i].selected)
  {
    var r := Reduce(items, AddItem(p));
    forall id ensures HasId(r, id) <==> HasId(items, id) || id == p.id {
      if HasId(r, id) {
        var m :| 0 <= m < |r| && r[m].Id() == id;
        if m < |items| {
          assert items[m].Id() == id;
        }
      }
      if HasId(items, id) {
        var m :| 0 <= m < |items| && items[m].Id() == id;
        assert r[m].Id() == id;
      }
      if id == p.id && !HasId(items, id) {
        assert r[|items|].Id() == id;
      }
    }
  }

  lemma PrefixIdsStep(saved: seq<CartItem>, k: nat)
    requires k < |saved|
    ensures forall id :: HasId(saved[..k + 1], id) <==> HasId(saved[..k], id) || id == saved[k].Id()
    ensures UniqueIds(saved) ==> !HasId(saved[..k], saved[k].Id())
  {
  }

  /** What holds after the first `k` saved items have been replayed into `items`. */
  ghost predicate Reloaded(items: seq<CartItem>, saved: seq<CartItem>, k: nat)
    requires k <= |saved|
  {
    && UniqueIds(items)
    && (forall id :: HasId(items, id) <==> HasId(saved[..k], id))
    && (forall i | 0 <= i < |items| :: !items[i].selected)
    && (UniqueIds(saved) ==>
          |items| == k && forall i | 0 <= i < k :: items[i] == NewItem(saved[i].product))
  }

  /** Replaying one more saved item keeps `Reloaded`. */
  lemma ReloadStep(items: seq<CartItem>, saved: seq<CartItem>, k: nat)
    requires k < |saved| && Reloaded(items, saved, k)
    ensures Reloaded(Reduce(items, AddItem(saved[k].product)), saved, k + 1)
  {
    var p := saved[k].product;
    AddItemIds(items, p);
    PrefixIdsStep(saved, k);
    if !HasId(items, p.id) {
      AddNewAppends(items, p);
    }
  }

  /**
   * The mount-time reload: every saved item is dispatched as ADD_ITEM, in order,
   * starting from the initial state. Saved quantities and selection flags are
   * not restored: each distinct product comes back once, unselected, with quantity 1.
   */
  method LoadSaved(saved: seq<CartItem>) returns (items: seq<CartItem>)
    ensures items == Run(Initial, ReloadActions(saved))
    ensures UniqueIds(items)
    ensures forall id :: HasId(items, id) <==> HasId(saved, id)
    ensures forall i | 0 <= i < |items| :: !items[i].selected
    ensures UniqueIds(saved) ==>
      |items| == |saved| && forall i | 0 <= i < |saved| :: items[i] == NewItem(saved[i].product)
  {
    var adds := ReloadActions(saved);
    items := Initial;
    var k := 0;
    while k < |saved|
      invariant 0 <= k <= |saved|
      invariant Run(items, adds[k..]) == Run(Initial, adds)
      invariant Reloaded(items, saved, k)
    {
      assert adds[k..][0] == AddItem(saved[k].product);
      assert adds[k..][1..] == adds[k + 1..];
      ReloadStep(items, saved, k);
      items := Reduce(items, AddItem(saved[k].product));
      k := k + 1;
    }
    assert saved[..k] == saved;
    assert adds[k..] == [];
  }

  /** Reloading two saved lines with quantities 2 and 1, one of them selected, gives both back unselected with quantity 1. */
  lemma ReloadExample(p: Product, q: Product)
    requires p.id != q.id
    ensures Run(Initial, ReloadActions([CartItem(p, 2, true), CartItem(q, 1, false)]))
         == [CartItem(p, 1, false), CartItem(q, 1, false)]
  {
    var acts := ReloadActions([CartItem(p, 2, true), CartItem(q, 1, false)]);
    assert acts == [AddItem(p), AddItem(q)];
    var s1 := Reduce(Initial, AddItem(p));
    assert s1 == [CartItem(p, 1, false)];
    assert !HasId(s1, q.id);
    var s2 := Reduce(s1, AddItem(q));
    assert s2 == [CartItem(p, 1, false), CartItem(q, 1, false)];
    assert acts[1..] == [AddItem(q)];
    assert acts[1..][1..] == [];
    assert Run(s2, []) == s2;
    assert Run(s1, [AddItem(q)]) == Run(s2, []);
    assert Run(Initial, acts) == Run(s1, [AddItem(q)]);
  }
}

=== FILE: cart_page.dfy ===
/**
 * The cart page: the actions each control dispatches, the select-all flag,
 * the checkout link, and the empty-cart view.
 */
module CartPage {
  import opened Entities
  import opened Cart

  /** `Math.max(1, quantity - 1)`: the quantity the minus button asks for. */
  function DecrementTo(q: int): (r: int)
    ensures r >= 1
    ensures q >= 1 ==> r <= q
    ensures q > 1 ==> r == q - 1
    ensures q <= 1 ==> r == 1
  {
    if q - 1 > 1 then q - 1 else 1
  }

  /** `Math.min(stock_quantity, quantity + 1)`: the quantity the plus button asks for. */
  function IncrementTo(q: int, stock: int): (r: int)
    ensures r <= stock && r <= q + 1
    ensures q < stock ==> r == q + 1
    ensures r == q + 1 || r == stock
  {
    if stock < q + 1 then stock else q + 1
  }

  /** The controls of one cart row and the actions they dispatch. */
  datatype Row = Row(
    item: CartItem,
    checked: bool,
    onToggle: Action,
    onRemove: Action,
    onDecrement: Action,
    onIncrement: Action,
    lineTotal: int)

  datatype View =
    | EmptyCart
    | CartView(
        selectAllChecked: bool,
        onSelectAll: Action,
        rows: seq<Row>,
        subtotal: int,
        total: int,
        checkoutHref: string)

  /** `items.every(item => item.selected)` */
  predicate AllSelected(items: seq<CartItem>)
  {
    forall i | 0 <= i < |items| :: items[i].selected
  }

  function RowFor(item: CartItem): Row
  {
    Row(item, item.selected,
        ToggleItem(item.Id()),
        RemoveItem(item.Id()),
        UpdateQuantity(item.Id(), DecrementTo(item.quantity)),
        UpdateQuantity(item.Id(), IncrementTo(item.quantity, item.product.stockQuantity)),
        item.LineTotal())
  }

  function Rows(items: seq<CartItem>): (r: seq<Row>)
    ensures |r| == |items|
    ensures forall i | 0 <= i < |items| :: r[i] == RowFor(items[i])
  {
    if items == [] then [] else [RowFor(items[0])] + Rows(items[1..])
  }

  /** The checkout link: to checkout when some item is selected, otherwise nowhere. */
  function CheckoutHref(items: seq<CartItem>): (h: string)
    ensures h in {"/checkout", "#"}
    ensures h == "/checkout" <==> exists i | 0 <= i < |items| :: items[i].selected
  {
    var t := CalculateTotals(items);
    assert |t.selectedItems| > 0 <==> exists i | 0 <= i < |items| :: items[i].selected by {
      if |t.selectedItems| > 0 {
        assert t.selectedItems[0] in t.selectedItems;
      }
      if i :| 0 <= i < |items| && items[i].selected {
        assert items[i] in t.selectedItems;
      }
    }
    if |t.selectedItems| > 0 then "/checkout" else "#"
  }

  /** The page for a cart: the empty-state view for an empty cart, otherwise one row per item and the summary. */
  function Render(items: seq<CartItem>): (v: View)
    ensures v.EmptyCart? <==> items == []
    ensures v.CartView? ==>
      && |v.rows| == |items|
      && (forall i | 0 <= i < |items| :: v.rows[i] == RowFor(items[i]))
      && (v.selectAllChecked <==> forall i | 0 <= i < |items| :: items[i].selected)
      && v.onSelectAll == ToggleAll(!v.selectAllChecked)
      && (v.checkoutHref == "/checkout" <==> exists i | 0 <= i < |items| :: items[i].selected)
      && v.checkoutHref in {"/checkout", "#"}
      && v.total == MaskedTotal(items)
      && v.subtotal == v.total
  {
    if items == [] then EmptyCart
    else
      var t := CalculateTotals(items);
      var checked := AllSelected(items);
      CartView(checked, ToggleAll(!checked), Rows(items), t.selectedTotal, t.selectedTotal, CheckoutHref(items))
  }

  /** Clicking select-all on a non-empty cart flips the checkbox: every flag becomes the new value and the box's state is inverted. */
  lemma SelectAllFlips(items: seq<CartItem>)
    requires items != []
    ensures Render(items).onSelectAll == ToggleAll(!AllSelected(items))
    ensures var after := Reduce(items, ToggleAll(!AllSelected(items)));
      && (forall i | 0 <= i < |after| :: after[i].selected == !AllSelected(items))
      && AllSelected(after) == !AllSelected(items)
  {
    var b := !AllSelected(items);
    var after := Reduce(items, ToggleAll(b));
    assert after == SelectAll(items, b);
    if !b {
      assert !after[0].selected;
    }
  }

  /**
   * The minus button the page renders for a row never takes it below one, never
   * raises a positive quantity, and raises a quantity of 0 (or less) to exactly 1.
   */
  lemma DecrementStaysPositive(items: seq<CartItem>, i: nat)
    requires i < |items| && UniqueIds(items)
    ensures Render(items).rows[i].onDecrement == RowFor(items[i]).onDecrement
    ensures var after := Reduce(items, RowFor(items[i]).onDecrement);
      && after[i].quantity >= 1
      && (items[i].quantity >= 1 ==> after[i].quantity <= items[i].quantity)
      && (items[i].quantity <= 1 ==> after[i].quantity == 1)
      && (forall j | 0 <= j < |items| && j != i :: after[j] == items[j])
  {
  }

  /**
   * The plus button the page renders for a row never takes a row above its stock; it adds one when there is
   * room, and otherwise sets the quantity to the stock (0 for a product out of
   * stock, a decrease for a row already above its stock).
   */
  lemma IncrementWithinStock(items: seq<CartItem>, i: nat)
    requires i < |items| && UniqueIds(items)
    ensures Render(items).rows[i].onIncrement == RowFor(items[i]).onIncrement
    ensures var after := Reduce(items, RowFor(items[i]).onIncrement);
      var stock := items[i].product.stockQuantity;
      && after[i].quantity <= stock
      && (items[i].quantity < stock ==> after[i].quantity == items[i].quantity + 1)
      && (items[i].quantity >= stock ==> after[i].quantity == stock)
      && (forall j | 0 <= j < |items| && j != i :: after[j] == items[j])
  {
  }
}

=== FILE: checkout.dfy ===
/**
 * The checkout page: whether checkout is offered, and `handleCheckout`, which
 * writes an order row, its item rows and a charge request in sequence. Each
 * remote step is a parameter holding its outcome; a failed step aborts the
 * rest without undoing earlier writes.
 */
module Checkout {
  import opened Common
  import opened Entities
  import opened Cart

  /** The body posted to the payment endpoint; `amount` is in cents. */
  datatype ChargeRequest = ChargeRequest(orderId: string, amount: int, description: string)

  /** What the payment endpoint returns on success. */
  datatype PixCode = PixCode(qrCodeText: string, copiaECola: string)

  /** Everything checkout wrote or requested before it stopped. */
  datatype Writes = Writes(order: Option<Order>, items: seq<OrderItem>, charge: Option<ChargeRequest>)

  const NoWrites := Writes(None, [], None)

  datatype Outcome =
    | AskForAddress                                 // alert, nothing written
    | GoToLogin                                     // redirect, nothing written
    | Failed(writes: Writes)                        // alert after a failed step
    | ShowPix(writes: Writes, code: PixCode)        // QR code and copy-paste code shown

  datatype Page = NothingSelected | CheckoutForm(lines: seq<CartItem>, total: int)

  /** Checkout is offered only when at least one cart item is selected. */
  function PageFor(items: seq<CartItem>): (p: Page)
    ensures p.NothingSelected? <==> forall i | 0 <= i < |items| :: !items[i].selected
    ensures p.CheckoutForm? ==> p.total == MaskedTotal(items) && p.lines == Selected(items)
  {
    var t := CalculateTotals(items);
    assert |t.selectedItems| == 0 <==> forall i | 0 <= i < |items| :: !items[i].selected by {
      if |t.selectedItems| > 0 {
        assert t.selectedItems[0] in t.selectedItems;
      }
      if i :| 0 <= i < |items| && items[i].selected {
        assert items[i] in t.selectedItems;
      }
    }
    if |t.selectedItems| == 0 then NothingSelected else CheckoutForm(t.selectedItems, t.selectedTotal)
  }

  /** `orderItems`: one row per selected cart item, in order. */
  function OrderItemsFor(orderId: string, selected: seq<CartItem>): (r: seq<OrderItem>)
    ensures |r| == |selected|
    ensures forall i | 0 <= i < |selected| ::
      r[i] == OrderItem(orderId, selected[i].Id(), selected[i].quantity,
                        selected[i].product.price, selected[i].product.price * selected[i].quantity)
  {
    if selected == [] then []
    else
      var it := selected[0];
      [OrderItem(orderId, it.Id(), it.quantity, it.product.price, it.product.price * it.quantity)]
      + OrderItemsFor(orderId, selected[1..])
  }

  /** The order items' `total_price` values add up to the cart total of the same lines. */
  lemma {:induction false} OrderItemsSumToTotal(orderId: string, selected: seq<CartItem>)
    ensures ItemsTotal(OrderItemsFor(orderId, selected)) == Total(selected)
  {
    if selected != [] {
      var r := OrderItemsFor(orderId, selected);
      assert r[1..] == OrderItemsFor(orderId, selected[1..]);
      OrderItemsSumToTotal(orderId, selected[1..]);
    }
  }

  /** `Pedido #` and the first eight characters of the order id. */
  function ChargeDescription(orderId: string): (d: string)
    ensures StartsWith(d, "Pedido #")
    ensures d[8..] == Prefix(orderId, 8)
    ensures |orderId| >= 8 ==> |d| == 16
  {
    "Pedido #" + Prefix(orderId, 8)
  }

  /**
   * `handleCheckout`, reached only from the checkout form (some item is selected).
   * `userId` is the session's user, `newOrderId` the id the order insert
   * returns, `itemsSaved` whether the item insert succeeded and `pix` what the
   * payment endpoint answered.
   */
  function HandleCheckout(
    items: seq<CartItem>,
    address: Option<Address>,
    userId: Option<string>,
    newOrderId: Option<string>,
    itemsSaved: bool,
    pix: Option<PixCode>
  ): (o: Outcome)
    requires PageFor(items).CheckoutForm?
    ensures address.None? ==> o == AskForAddress
    ensures address.Some? && userId.None? ==> o == GoToLogin
    ensures (o.Failed? || o.ShowPix?) <==> address.Some? && userId.Some?
    ensures o.ShowPix? <==> address.Some? && userId.Some? && newOrderId.Some? && itemsSaved && pix.Some?
    ensures o.ShowPix? ==> o.code == pix.value
  {
    var t := CalculateTotals(items);
    if address.None? then AskForAddress
    else if userId.None? then GoToLogin
    else if newOrderId.None? then Failed(NoWrites)
    else
      var order := Order(newOrderId.value, userId.value, address.value.id, Pending, None,
                         t.selectedTotal, 0, t.selectedTotal, None, None);
      var rows := OrderItemsFor(order.id, t.selectedItems);
      if !itemsSaved then Failed(Writes(Some(order), [], None))
      else
        var charge := ChargeRequest(order.id, t.selectedTotal, ChargeDescription(order.id));
        if pix.None? then Failed(Writes(Some(order), rows, Some(charge)))
        else ShowPix(Writes(Some(order), rows, Some(charge)), pix.value)
  }

  function WritesOf(o: Outcome): Writes
  {
    match o
    case Failed(w) => w
    case ShowPix(w, _) => w
    case _ => NoWrites
  }

  /**
   * Whatever checkout wrote is consistent with the selected lines: a pending order
   * with no discount whose subtotal and total are the selected total, one item row
   * per selected line in order whose totals add up to the order total, and a
   * charge for that total described by the order id. The order is written exactly when
   * address, session and order insert are all there; item rows and the charge follow
   * exactly when the item insert succeeded too.
   */
  lemma CheckoutWritesAgree(
    items: seq<CartItem>, address: Option<Address>, userId: Option<string>,
    newOrderId: Option<string>, itemsSaved: bool, pix: Option<PixCode>)
    requires PageFor(items).CheckoutForm?
    ensures var w := WritesOf(HandleCheckout(items, address, userId, newOrderId, itemsSaved, pix));
      var sel := Selected(items);
      && (w.order.Some? <==> address.Some? && userId.Some? && newOrderId.Some?)
      && (w.order.None? ==> w.items == [] && w.charge.None?)
      && (!itemsSaved ==> w.items == [] && w.charge.None?)
      && (w.order.Some? && itemsSaved ==> w.items == OrderItemsFor(newOrderId.value, sel) && w.charge.Some?)
      && (w.order.Some? ==>
        && w.order.value.id == newOrderId.value
        && w.order.value.userId == userId.value
        && w.order.value.addressId == address.value.id
        && w.order.value.status == Pending
        && w.order.value.discount == 0
        && w.order.value.subtotal == w.order.value.total == MaskedTotal(items))
      && (w.items != [] ==>
        && |w.items| == |sel|
        && (forall i | 0 <= i < |sel| ::
          && w.items[i].orderId == newOrderId.value
          && w.items[i].productId == sel[i].Id()
          && w.items[i].quantity == sel[i].quantity
          && w.items[i].unitPrice == sel[i].product.price
          && w.items[i].totalPrice == sel[i].product.price * sel[i].quantity)
        && ItemsTotal(w.items) == w.order.value.total)
      && (w.charge.Some? ==>
        && w.items == OrderItemsFor(newOrderId.value, sel)
        && w.charge.value.orderId == newOrderId.value
        && w.charge.value.amount == MaskedTotal(items)
        && w.charge.value.description == "Pedido #" + Prefix(newOrderId.value, 8))
  {
    var sel := Selected(items);
    SelectedTotalIsMasked(items);
    if newOrderId.Some? {
      OrderItemsSumToTotal(newOrderId.value, sel);
    }
  }

  /** Without an address nothing is written; without a session nothing is written either. */
  lemma NoAddressNoWrites(
    items: seq<CartItem>, address: Option<Address>, userId: Option<string>,
    newOrderId: Option<string>, itemsSaved: bool, pix: Option<PixCode>)
    requires PageFor(items).CheckoutForm?
    ensures WritesOf(HandleCheckout(items, None, userId, newOrderId, itemsSaved, pix)) == NoWrites
    ensures WritesOf(HandleCheckout(items, address, None, newOrderId, itemsSaved, pix)) == NoWrites
  {
  }

  /** One selected line of 50.00 × 2 gives an order of 100.00, one item row of 100.00 and a charge of 100.00. */
  lemma SingleLineExample(p: Product, a: Address, pix: PixCode)
    requires p.price == 5000
    ensures var items := [CartItem(p, 2, true)];
      var o := HandleCheckout(items, Some(a), Some("user-1"), Some("0123456789ab"), true, Some(pix));
      && o.ShowPix?
      && o.writes.order.value.total == 10000
      && o.writes.items == [OrderItem("0123456789ab", p.id, 2, 5000, 10000)]
      && o.writes.charge == Some(ChargeRequest("0123456789ab", 10000, "Pedido #01234567"))
  {
    var items := [CartItem(p, 2, true)];
    assert Selected(items) == items;
    assert Selected(items)[1..] == [];
    assert items[1..] == [];
    assert Total(items) == 10000;
    assert OrderItemsFor("0123456789ab", items) == [OrderItem("0123456789ab", p.id, 2, 5000, 10000)];
    assert Prefix("0123456789ab", 8) == "01234567";
    assert ChargeDescription("0123456789ab") == "Pedido #01234567";
  }
}

=== FILE: common.dfy ===
/** Failure-carrying wrappers and the few string operations the storefront code uses. */
module Common {

  /** A value that may be absent. */
  datatype Option<+T> = None | Some(value: T)

  /** The outcome of a parse or a remote call: a value or an error. */
  datatype Result<+T, +E> = Success(value: T) | Failure(error: E)

  /** `s.startsWith(p)` */
  predicate StartsWith(s: string, p: string)
  {
    |p| <= |s| && s[..|p|] == p
  }

  /** `s.slice(0, n)`: the first `n` characters, or all of `s` when it is shorter. */
  function Prefix(s: string, n: nat): (r: string)
    ensures |r| <= n && |r| <= |s|
    ensures |s| >= n ==> |r| == n
    ensures |s| <= n ==> r == s
    ensures StartsWith(s, r)
  {
    if |s| <= n then s else s[..n]
  }

  /** The number of UTF-16 code units of a character: two for one outside the basic plane. */
  function Utf16Units(c: char): nat
  {
    if c as int < 0x1_0000 then 1 else 2
  }

  /** JavaScript's `s.length`: the string's length in UTF-16 code units. */
  function Utf16Length(s: string): (n: nat)
    ensures |s| <= n <= 2 * |s|
    ensures n == 0 <==> s == []
    ensures (forall i | 0 <= i < |s| :: s[i] as int < 0x1_0000) ==> n == |s|
    ensures (exists i | 0 <= i < |s| :: s[i] as int >= 0x1_0000) ==> n > |s|
    ensures |s| == 1 ==> n == Utf16Units(s[0])
  {
    if s == [] then 0 else Utf16Units(s[0]) + Utf16Length(s[1..])
  }

  /** The UTF-16 length of a concatenation is the sum of the parts' lengths. */
  lemma {:induction false} Utf16LengthAppend(a: string, b: string)
    ensures Utf16Length(a + b) == Utf16Length(a) + Utf16Length(b)
  {
    if a == [] {
      assert a + b == b;
    } else {
      assert (a + b)[1..] == a[1..] + b;
      Utf16LengthAppend(a[1..], b);
    }
  }

  /** ASCII upper-casing of one character. */
  function UpperChar(c: char): char
  {
    if 'a' <= c <= 'z' then (c as int - 32) as char else c
  }

  predicate IsUpper(s: string)
  {
    forall i | 0 <= i < |s| :: UpperChar(s[i]) == s[i]
  }

  /** `s.toUpperCase()`, restricted to the ASCII letters. */
  function ToUpper(s: string): (r: string)
    ensures |r| == |s|
    ensures forall i | 0 <= i < |s| :: r[i] == UpperChar(s[i])
  {
    if s == [] then [] else [UpperChar(s[0])] + ToUpper(s[1..])
  }

  /** Upper-casing touches only ASCII letters, so the JavaScript length is unchanged. */
  lemma {:induction false} ToUpperKeepsUtf16Length(s: string)
    ensures Utf16Length(ToUpper(s)) == Utf16Length(s)
  {
    if s != [] {
      assert ToUpper(s)[1..] == ToUpper(s[1..]);
      ToUpperKeepsUtf16Length(s[1..]);
    }
  }

  /** Upper-casing never changes a string that is already upper case, so applying it twice is applying it once. */
  lemma ToUpperIdempotent(s: string)
    ensures IsUpper(ToUpper(s))
    ensures ToUpper(ToUpper(s)) == ToUpper(s)
  {
  }
}

=== FILE: entities.dfy ===
/** The persisted records the storefront reads and writes (timestamps omitted). */
module Entities {
  import opened Common

  datatype OrderStatus = Pending | Processing | Shipped | Delivered

  datatype ProductStatus = Draft | Published | OutOfStock

  /** A catalogue product; `price` is in integer cents. */
  datatype Product = Product(
    id: string,
    name: string,
    description: Option<string>,
    price: int,
    images: seq<string>,
    status: ProductStatus,
    stockQuantity: int)

  datatype Address = Address(
    id: string,
    userId: string,
    street: string,
    number: string,
    complement: Option<string>,
    neighborhood: string,
    city: string,
    state: string,
    postalCode: string,
    isDefault: bool)

  /** An order row; money fields are in integer cents. */
  datatype Order = Order(
    id: string,
    userId: string,
    addressId: string,
    status: OrderStatus,
    couponId: Option<string>,
    subtotal: int,
    discount: int,
    total: int,
    paymentIntentId: Option<string>,
    paymentStatus: Option<string>)

  datatype OrderItem = OrderItem(
    orderId: string,
    productId: string,
    quantity: int,
    unitPrice: int,
    totalPrice: int)

  /** Sum of `total_price` over order items. */
  function ItemsTotal(items: seq<OrderItem>): int
  {
    if items == [] then 0 else items[0].totalPrice + ItemsTotal(items[1..])
  }
}

=== FILE: pix_webhook.dfy ===
/**
 * The payment webhook: checks the shared secret, updates the order the
 * notification names, and sends the confirmation e-mail when it is paid.
 */
module PixWebhook {
  import opened Common
  import opened Entities

  datatype Notification = Notification(paymentId: string, status: string)

  /** An order item joined with its product's name (`None` when the join found no product). */
  datatype ItemRecord = ItemRecord(item: OrderItem, productName: Option<string>)

  datatype Customer = Customer(fullName: string, email: string)

  /** The order row as the lookup returns it, with its joined profile, address and items. */
  datatype OrderRecord = OrderRecord(
    order: Order,
    customer: Option<Customer>,
    address: Option<Address>,
    items: seq<ItemRecord>)

  datatype EmailItem = EmailItem(name: string, quantity: int, price: int)

  datatype Email = Email(to: string, subject: string, customerName: string,
                         items: seq<EmailItem>, address: Address, total: int)

  datatype Response = Response(code: int, updated: Option<Order>, email: Option<Email>)

  /** `status: body.status === 'paid' ? 'processing' : 'pending'` */
  function NewStatus(paymentStatus: string): OrderStatus
  {
    if paymentStatus == "paid" then Processing else Pending
  }

  /** The row after the update: the payment status verbatim and the derived order status. */
  function Updated(o: Order, paymentStatus: string): (r: Order)
    ensures r.paymentStatus == Some(paymentStatus)
    ensures r.status == Processing <==> paymentStatus == "paid"
    ensures r.status == Pending <==> paymentStatus != "paid"
    ensures r.(status := o.status, paymentStatus := o.paymentStatus) == o
  {
    o.(paymentStatus := Some(paymentStatus), status := NewStatus(paymentStatus))
  }

  /** The e-mail lines: name, quantity and unit price of each item; `None` when a product name is missing. */
  function EmailItems(items: seq<ItemRecord>): (r: Option<seq<EmailItem>>)
    ensures r.Some? <==> forall i | 0 <= i < |items| :: items[i].productName.Some?
    ensures r.Some? ==> |r.value| == |items| && forall i | 0 <= i < |items| ::
      r.value[i] == EmailItem(items[i].productName.value, items[i].item.quantity, items[i].item.unitPrice)
  {
    if items == [] then Some([])
    else
      var rest := EmailItems(items[1..]);
      if items[0].productName.None? || rest.None? then None
      else Some([EmailItem(items[0].productName.value, items[0].item.quantity, items[0].item.unitPrice)] + rest.value)
  }

  /** The confirmation e-mail, or `None` when a joined record it reads is missing (which throws). */
  function ConfirmationEmail(rec: OrderRecord): (e: Option<Email>)
    ensures e.Some? <==> rec.customer.Some? && rec.address.Some? && EmailItems(rec.items).Some?
    ensures e.Some? ==> e.value.to == rec.customer.value.email && e.value.items == EmailItems(rec.items).value
    ensures e.Some? ==> e.value.total == rec.order.total
    ensures e.Some? ==>
      && e.value.address == rec.address.value
      && e.value.customerName == rec.customer.value.fullName
      && e.value.subject == "Pedido Confirmado - HYPEX #" + Prefix(rec.order.id, 8)
  {
    var lines := EmailItems(rec.items);
    if rec.customer.None? || rec.address.None? || lines.None? then None
    else Some(Email(
      rec.customer.value.email,
      "Pedido Confirmado - HYPEX #" + Prefix(rec.order.id, 8),
      rec.customer.value.fullName,
      lines.value,
      rec.address.value,
      rec.order.total))
  }

  /**
   * `POST`. `body` is `None` when the request body is not JSON; `signature` is the
   * `x-efi-signature` header and `secret` the configured secret; `lookup` is the
   * order the payment id selects, or `None` when that query fails; `updateOk`
   * says whether the update succeeded.
   */
  function HandleNotification(
    body: Option<Notification>,
    signature: Option<string>,
    secret: Option<string>,
    lookup: Option<OrderRecord>,
    updateOk: bool
  ): (r: Response)
    ensures r.code in {200, 401, 500}
    ensures r.code == 401 <==> body.Some? && (signature.None? || signature.value == "" || secret != signature)
    ensures r.email.Some? <==>
      && r.code == 200 && body.Some? && body.value.status == "paid"
    ensures r.code == 200 ==> r.updated.Some?
    ensures r.updated.Some? ==>
      && body.Some? && lookup.Some? && updateOk
      && r.updated == Some(Updated(lookup.value.order, body.value.status))
    ensures r.code == 401 ==> r.updated.None? && r.email.None?
    ensures r.email.Some? ==> lookup.Some? && r.email == ConfirmationEmail(lookup.value)
    ensures lookup.None? || !updateOk ==> r.code != 200 && r.updated.None? && r.email.None?
    ensures body.Some? && signature.Some? && signature.value != "" && secret == signature
            && lookup.Some? && updateOk ==>
      && r.updated == Some(Updated(lookup.value.order, body.value.status))
      && (body.value.status != "paid" ==> r.code == 200)
      && (body.value.status == "paid" ==> (r.code == 200 <==> ConfirmationEmail(lookup.value).Some?))
  {
    if body.None? then Response(500, None, None)
    else if signature.None? || signature.value == "" || secret != signature then Response(401, None, None)
    else if lookup.None? then Response(500, None, None)
    else if !updateOk then Response(500, None, None)
    else
      var n := body.value;
      var updated := Updated(lookup.value.order, n.status);
      if n.status != "paid" then Response(200, Some(updated), None)
      else
        var e := ConfirmationEmail(lookup.value);
        if e.None? then Response(500, Some(updated), None)
        else Response(200, Some(updated), e)
  }

  /** With no secret configured every notification that parses is refused. */
  lemma UnsetSecretRefuses(body: Notification, signature: Option<string>, lookup: Option<OrderRecord>, updateOk: bool)
    ensures HandleNotification(Some(body), signature, None, lookup, updateOk) == Response(401, None, None)
  {
  }

  /** A paid notification for a complete order record is confirmed: status processing and the record's confirmation e-mail, with the order's lines and total. */
  lemma PaidSendsConfirmation(n: Notification, secret: string, rec: OrderRecord)
    requires secret != "" && n.status == "paid"
    requires rec.customer.Some? && rec.address.Some?
    requires forall i | 0 <= i < |rec.items| :: rec.items[i].productName.Some?
    ensures var r := HandleNotification(Some(n), Some(secret), Some(secret), Some(rec), true);
      && r.code == 200
      && r.updated.Some? && r.updated.value.status == Processing
      && r.email.Some?
      && r.email == ConfirmationEmail(rec)
      && r.email.value.to == rec.customer.value.email
      && r.email.value.total == rec.order.total
      && |r.email.value.items| == |rec.items|
      && forall i | 0 <= i < |rec.items| ::
        r.email.value.items[i].quantity == rec.items[i].item.quantity
        && r.email.value.items[i].price == rec.items[i].item.unitPrice
  {
  }
}

=== FILE: route_guard.dfy ===
/**
 * The request middleware: admin pages need a session whose profile is an
 * admin, and the login and register pages send a signed-in user home.
 */
module RouteGuard {
  import opened Common

  datatype Decision = Pass | Redirect(to: string)

  /**
   * `session` is whether the request carries a session; `profileIsAdmin` is the
   * `is_admin` column of the session user's profile, `None` when that lookup
   * returns no row (it is consulted only for admin paths with a session).
   */
  function Decide(path: string, session: bool, profileIsAdmin: Option<bool>): (d: Decision)
    ensures d.Redirect? ==> d.to in {"/login", "/"}
    ensures d == Redirect("/login") <==> StartsWith(path, "/admin") && !session
    ensures d == Pass <==>
      if StartsWith(path, "/admin") then session && profileIsAdmin == Some(true)
      else !(session && path in {"/login", "/register"})
  {
    assert !StartsWith("/login", "/admin") && !StartsWith("/register", "/admin") by {
      assert "/login"[1] != "/admin"[1];
      assert "/register"[1] != "/admin"[1];
    }
    if StartsWith(path, "/admin") && !session then Redirect("/login")
    else if StartsWith(path, "/admin") && profileIsAdmin != Some(true) then Redirect("/")
    else if path in ["/login", "/register"] && session then Redirect("/")
    else Pass
  }

  /** An admin path with a session but no admin profile goes home. */
  lemma NonAdminGoesHome(path: string, profileIsAdmin: Option<bool>)
    requires StartsWith(path, "/admin")
    requires profileIsAdmin.None? || profileIsAdmin == Some(false)
    ensures Decide(path, true, profileIsAdmin) == Redirect("/")
  {
  }

  /** The guard is a plain prefix comparison, so a longer path such as `/administrator` is guarded too. */
  lemma PrefixGuardsLongerPaths()
    ensures Decide("/administrator", false, None) == Redirect("/login")
    ensures Decide("/administrator", true, Some(false)) == Redirect("/")
  {
    assert "/administrator"[..6] == "/admin";
  }

  /** Following a redirect with the same session never redirects again. */
  lemma RedirectTargetsPass(path: string, session: bool, profileIsAdmin: Option<bool>)
    requires Decide(path, session, profileIsAdmin).Redirect?
    ensures Decide(Decide(path, session, profileIsAdmin).to, session, profileIsAdmin) == Pass
  {
    var to := Decide(path, session, profileIsAdmin).to;
    assert !StartsWith(to, "/admin") by {
      if to == "/login" { assert to[1] != "/admin"[1]; }
    }
  }
}

=== FILE: schemas.dfy ===
/**
 * The form schemas: each validator returns the parsed value or the list of
 * issues (field and message) the schema reports. Form numbers are `real`, so
 * an integer check is `x == x.Floor as real`.
 */
module Schemas {
  import opened Common
  import opened Entities

  datatype Issue = Issue(field: string, message: string)

  predicate IsDigit(c: char) { '0' <= c <= '9' }

  predicate AllDigits(s: string)
  {
    forall i | 0 <= i < |s| :: IsDigit(s[i])
  }

  predicate IsInteger(x: real) { x == x.Floor as real }

  // ---------------------------------------------------------------- postal code

  /** Five digits, an optional hyphen, three digits. */
  predicate PostalCodeShape(s: string)
  {
    || (|s| == 8 && AllDigits(s))
    || (|s| == 9 && AllDigits(s[..5]) && s[5] == '-' && AllDigits(s[6..]))
  }

  /**
   * A matcher for `^\d{5}-?\d{3}$`: `Lead(n)` has read n digits of the first
   * group, `Tail(n)` has read n digits of the second.
   */
  datatype Phase = Lead(n: nat) | Tail(n: nat)

  function Step(ph: Phase, c: char): Option<Phase>
  {
    match ph
    case Lead(n) =>
      if n < 5 then (if IsDigit(c) then Some(Lead(n + 1)) else None)
      else if c == '-' then Some(Tail(0))
      else if IsDigit(c) then Some(Tail(1))
      else None
    case Tail(n) =>
      if n < 3 && IsDigit(c) then Some(Tail(n + 1)) else None
  }

  function Accepts(ph: Phase, s: string): bool
    decreases |s|
  {
    if s == [] then ph == Tail(3)
    else match Step(ph, s[0])
      case None => false
      case Some(next) => Accepts(next, s[1..])
  }

  predicate MatchesPostalCode(s: string)
  {
    Accepts(Lead(0), s)
  }

  lemma {:induction false} TailAccepts(n: nat, s: string)
    requires n <= 3
    ensures Accepts(Tail(n), s) <==> |s| == 3 - n && AllDigits(s)
    decreases |s|
  {
    if s != [] {
      if n < 3 && IsDigit(s[0]) {
        TailAccepts(n + 1, s[1..]);
        assert AllDigits(s) <==> AllDigits(s[1..]) by {
          if AllDigits(s[1..]) {
            forall i | 0 <= i < |s| ensures IsDigit(s[i]) {
              if i > 0 { assert s[i] == s[1..][i - 1]; }
            }
          }
        }
      }
    }
  }

  lemma {:induction false} LeadAccepts(n: nat, s: string)
    requires n <= 5
    ensures Accepts(Lead(n), s) <==>
      || (|s| == 8 - n && AllDigits(s))
      || (|s| == 9 - n && AllDigits(s[..5 - n]) && s[5 - n] == '-' && AllDigits(s[6 - n..]))
    decreases |s|
  {
    if s == [] {
      return;
    }
    var t := s[1..];
    assert AllDigits(s) <==> IsDigit(s[0]) && AllDigits(t) by {
      if IsDigit(s[0]) && AllDigits(t) {
        forall i | 0 <= i < |s| ensures IsDigit(s[i]) {
          if i > 0 { assert s[i] == t[i - 1]; }
        }
      }
    }
    if n < 5 {
      if IsDigit(s[0]) {
        LeadAccepts(n + 1, t);
        if |s| == 9 - n {
          assert t[..5 - (n + 1)] == s[1..5 - n];
          assert t[6 - (n + 1)..] == s[6 - n..];
          assert t[5 - (n + 1)] == s[5 - n];
          assert AllDigits(s[..5 - n]) <==> IsDigit(s[0]) && AllDigits(s[1..5 - n]) by {
            var h := s[..5 - n];
            assert h[0] == s[0];
            assert h[1..] == s[1..5 - n];
            if IsDigit(s[0]) && AllDigits(s[1..5 - n]) {
              forall i | 0 <= i < |h| ensures IsDigit(h[i]) {
                if i > 0 { assert h[i] == h[1..][i - 1]; }
              }
            }
          }
        }
      } else {
        assert !AllDigits(s);
        if |s| == 9 - n {
          assert s[..5 - n][0] == s[0];
        }
      }
    } else {
      if s[0] == '-' {
        TailAccepts(0, t);
        assert s[..0] == [];
      } else if IsDigit(s[0]) {
        TailAccepts(1, t);
      } else {
        assert !AllDigits(s);
      }
    }
  }

  /** The matcher accepts exactly the strings of the postal-code shape. */
  lemma PostalCodeMatcherCorrect(s: string)
    ensures MatchesPostalCode(s) <==> PostalCodeShape(s)
  {
    LeadAccepts(0, s);
  }

  // ---------------------------------------------------------------- address

  datatype AddressForm = AddressForm(
    street: string,
    number: string,
    complement: Option<string>,
    neighborhood: string,
    city: string,
    state: string,
    postalCode: string,
    isDefault: bool)

  function AddressIssues(f: AddressForm): seq<Issue>
  {
    (if Utf16Length(f.street) < 1 then [Issue("street", "Rua é obrigatória")] else [])
    + (if Utf16Length(f.number) < 1 then [Issue("number", "Número é obrigatório")] else [])
    + (if Utf16Length(f.neighborhood) < 1 then [Issue("neighborhood", "Bairro é obrigatório")] else [])
    + (if Utf16Length(f.city) < 1 then [Issue("city", "Cidade é obrigatória")] else [])
    + (if Utf16Length(f.state) < 2 then [Issue("state", "Estado é obrigatório")] else [])
    + (if Utf16Length(f.state) > 2 then [Issue("state", "Use a sigla do estado")] else [])
    + (if !MatchesPostalCode(f.postalCode) then [Issue("postal_code", "CEP inválido")] else [])
  }

  /** What a valid address is (lengths in UTF-16 code units, as JavaScript counts them): required fields non-empty, a two-unit state, a well-shaped postal code. */
  predicate ValidAddress(f: AddressForm)
  {
    && f.street != []
    && f.number != []
    && f.neighborhood != []
    && f.city != []
    && Utf16Length(f.state) == 2
    && PostalCodeShape(f.postalCode)
  }

  function ValidateAddress(f: AddressForm): (r: Result<AddressForm, seq<Issue>>)
    ensures r.Success? <==> ValidAddress(f)
    ensures r.Success? ==> r.value == f
    ensures r.Failure? ==> r.error != []
  {
    PostalCodeMatcherCorrect(f.postalCode);
    var issues := AddressIssues(f);
    if issues == [] then Success(f) else Failure(issues)
  }

  /** The complement is optional: it never decides whether an address is accepted. */
  lemma ComplementIsOptional(f: AddressForm, c: Option<string>)
    ensures ValidateAddress(f).Success? <==> ValidateAddress(f.(complement := c)).Success?
  {
  }

  /** A state of one character outside the basic plane is two JavaScript units long, so the
      length check treats it exactly like a two-letter abbreviation. */
  lemma AstralStateHasTwoUnits(f: AddressForm)
    requires f.state == ['\U{1F600}']
    ensures Utf16Length(f.state) == 2
    ensures ValidateAddress(f).Success? <==> ValidateAddress(f.(state := "SP")).Success?
  {
    assert Utf16Length("SP") == 2;
  }

  // ---------------------------------------------------------------- product

  datatype ProductForm = ProductForm(
    name: string,
    description: Option<string>,
    price: real,
    images: seq<string>,
    status: string,
    stockQuantity: real)

  /** The parsed product: the status is one of the enum's values and the stock an integer. */
  datatype ProductData = ProductData(
    name: string,
    description: Option<string>,
    price: real,
    images: seq<string>,
    status: ProductStatus,
    stockQuantity: int)

  function StatusName(st: ProductStatus): string
  {
    match st
    case Draft => "draft"
    case Published => "published"
    case OutOfStock => "out_of_stock"
  }

  function ParseStatus(s: string): (r: Option<ProductStatus>)
    ensures r.Some? ==> StatusName(r.value) == s
  {
    if s == "draft" then Some(Draft)
    else if s == "published" then Some(Published)
    else if s == "out_of_stock" then Some(OutOfStock)
    else None
  }

  /** Parsing a status name gives back the status it names, so the enum accepts exactly the three names. */
  lemma StatusRoundTrip(st: ProductStatus)
    ensures ParseStatus(StatusName(st)) == Some(st)
  {
  }

  /** One issue per image that is not a URL. */
  function UrlIssues(images: seq<string>, isUrl: string -> bool): (r: seq<Issue>)
    ensures r == [] <==> forall i | 0 <= i < |images| :: isUrl(images[i])
  {
    if images == [] then []
    else
      (if isUrl(images[0]) then [] else [Issue("images", "URL inválida")])
      + UrlIssues(images[1..], isUrl)
  }

  function ProductIssues(f: ProductForm, isUrl: string -> bool): seq<Issue>
  {
    (if Utf16Length(f.name) < 1 then [Issue("name", "Nome é obrigatório")] else [])
    + (if f.price < 0.01 then [Issue("price", "Preço deve ser maior que zero")] else [])
    + UrlIssues(f.images, isUrl)
    + (if |f.images| < 1 then [Issue("images", "Pelo menos uma imagem é obrigatória")] else [])
    + (if |f.images| > 5 then [Issue("images", "Máximo de 5 imagens")] else [])
    + (if ParseStatus(f.status).None? then [Issue("status", "Invalid enum value")] else [])
    + (if !IsInteger(f.stockQuantity) then [Issue("stock_quantity", "Expected integer, received float")] else [])
    + (if f.stockQuantity < 0.0 then [Issue("stock_quantity", "Quantidade não pode ser negativa")] else [])
  }

  function ValidateProduct(f: ProductForm, isUrl: string -> bool): (r: Result<ProductData, seq<Issue>>)
    ensures r.Success? <==>
      && f.name != []
      && f.price >= 0.01
      && 1 <= |f.images| <= 5
      && (forall i | 0 <= i < |f.images| :: isUrl(f.images[i]))
      && f.status in {"draft", "published", "out_of_stock"}
      && IsInteger(f.stockQuantity)
      && f.stockQuantity >= 0.0
    ensures r.Success? ==>
      && r.value.name == f.name && r.value.price == f.price && r.value.images == f.images
      && r.value.description == f.description
      && StatusName(r.value.status) == f.status
      && r.value.stockQuantity >= 0
      && r.value.stockQuantity as real == f.stockQuantity
  {
    var issues := ProductIssues(f, isUrl);
    if issues == [] then
      Success(ProductData(f.name, f.description, f.price, f.images, ParseStatus(f.status).value, f.stockQuantity.Floor))
    else Failure(issues)
  }

  // ---------------------------------------------------------------- coupon

  /** A coupon form; `None` stands for both `null` and an absent field. */
  datatype CouponForm = CouponForm(
    code: string,
    discountPercentage: Option<real>,
    discountFixed: Option<real>,
    minPurchaseAmount: Option<real>,
    maxUses: Option<real>,
    startsAt: Option<string>,
    expiresAt: Option<string>)

  const NoDiscountMessage := "Deve especificar desconto percentual ou fixo"

  function CouponFieldIssues(f: CouponForm, isDatetime: string -> bool): seq<Issue>
  {
    (if Utf16Length(f.code) < 3 then [Issue("code", "Código deve ter pelo menos 3 caracteres")] else [])
    + (match f.discountPercentage
       case None => []
       case Some(p) =>
         (if p < 0.0 then [Issue("discount_percentage", "Number must be greater than or equal to 0")] else [])
         + (if p > 100.0 then [Issue("discount_percentage", "Number must be less than or equal to 100")] else []))
    + (match f.discountFixed
       case None => []
       case Some(d) => if d < 0.0 then [Issue("discount_fixed", "Number must be greater than or equal to 0")] else [])
    + (match f.minPurchaseAmount
       case None => []
       case Some(m) => if m < 0.0 then [Issue("min_purchase_amount", "Number must be greater than or equal to 0")] else [])
    + (match f.maxUses
       case None => []
       case Some(u) =>
         (if !IsInteger(u) then [Issue("max_uses", "Expected integer, received float")] else [])
         + (if u < 1.0 then [Issue("max_uses", "Number must be greater than or equal to 1")] else []))
    + (match f.startsAt
       case None => []
       case Some(t) => if isDatetime(t) then [] else [Issue("starts_at", "Invalid datetime")])
    + (match f.expiresAt
       case None => []
       case Some(t) => if isDatetime(t) then [] else [Issue("expires_at", "Invalid datetime")])
  }

  /** At least one kind of discount is given. */
  predicate HasDiscount(f: CouponForm)
  {
    f.discountPercentage.Some? || f.discountFixed.Some?
  }

  /** The field constraints, each applying only when its optional field is present. */
  predicate CouponFieldsValid(f: CouponForm, isDatetime: string -> bool)
  {
    && Utf16Length(f.code) >= 3
    && (f.discountPercentage.Some? ==> 0.0 <= f.discountPercentage.value <= 100.0)
    && (f.discountFixed.Some? ==> f.discountFixed.value >= 0.0)
    && (f.minPurchaseAmount.Some? ==> f.minPurchaseAmount.value >= 0.0)
    && (f.maxUses.Some? ==> IsInteger(f.maxUses.value) && f.maxUses.value >= 1.0)
    && (f.startsAt.Some? ==> isDatetime(f.startsAt.value))
    && (f.expiresAt.Some? ==> isDatetime(f.expiresAt.value))
  }

  /** The field checks, then the upper-casing of the code, then the at-least-one-discount refinement. */
  function ValidateCoupon(f: CouponForm, isDatetime: string -> bool): (r: Result<CouponForm, seq<Issue>>)
    ensures r.Success? <==> CouponFieldsValid(f, isDatetime) && HasDiscount(f)
    ensures r.Success? ==> r.value == f.(code := ToUpper(f.code))
    ensures !HasDiscount(f) ==> r.Failure? && Issue("", NoDiscountMessage) in r.error
  {
    var issues := CouponFieldIssues(f, isDatetime)
      + (if HasDiscount(f) then [] else [Issue("", NoDiscountMessage)]);
    if issues == [] then Success(f.(code := ToUpper(f.code))) else Failure(issues)
  }

  /** Validating an already validated coupon accepts it unchanged: the output code is upper case and as long as the input's. */
  lemma CouponValidationIdempotent(f: CouponForm, isDatetime: string -> bool)
    requires ValidateCoupon(f, isDatetime).Success?
    ensures var v := ValidateCoupon(f, isDatetime).value;
      && IsUpper(v.code)
      && |v.code| == |f.code|
      && Utf16Length(v.code) == Utf16Length(f.code)
      && ValidateCoupon(v, isDatetime) == Success(v)
  {
    ToUpperIdempotent(f.code);
    ToUpperKeepsUtf16Length(f.code);
  }

  // ---------------------------------------------------------------- order

  datatype OrderLineForm = OrderLineForm(productId: string, quantity: real)

  datatype OrderForm = OrderForm(addressId: string, items: seq<OrderLineForm>, couponCode: Option<string>)

  /** A line is valid with a product uuid and a whole quantity of at least one. */
  predicate ValidLine(l: OrderLineForm, isUuid: string -> bool)
  {
    isUuid(l.productId) && IsInteger(l.quantity) && l.quantity >= 1.0
  }

  function LineIssues(items: seq<OrderLineForm>, isUuid: string -> bool): (r: seq<Issue>)
    ensures r == [] <==> forall i | 0 <= i < |items| :: ValidLine(items[i], isUuid)
  {
    if items == [] then []
    else
      var l := items[0];
      (if isUuid(l.productId) then [] else [Issue("items", "ID do produto inválido")])
      + (if IsInteger(l.quantity) then [] else [Issue("items", "Expected integer, received float")])
      + (if l.quantity < 1.0 then [Issue("items", "Quantidade deve ser maior que zero")] else [])
      + LineIssues(items[1..], isUuid)
  }

  function ValidateOrder(f: OrderForm, isUuid: string -> bool): (r: Result<OrderForm, seq<Issue>>)
    ensures r.Success? <==>
      && isUuid(f.addressId)
      && |f.items| >= 1
      && forall i | 0 <= i < |f.items| :: ValidLine(f.items[i], isUuid)
    ensures r.Success? ==> r.value == f
  {
    var issues :=
      (if isUuid(f.addressId) then [] else [Issue("address_id", "ID do endereço inválido")])
      + LineIssues(f.items, isUuid)
      + (if |f.items| < 1 then [Issue("items", "Pedido deve ter pelo menos um item")] else []);
    if issues == [] then Success(f) else Failure(issues)
  }
}
